=== FILE: README.md ===
# slim-exception: formatter registry, content-type selection and plain-text trace

A Dafny model of two pieces of slim-exception, a PHP library for Slim that
turns HTTP exceptions into error responses.

1. **The exception handler** (`ExceptionHandler` module). This covers:
   - the formatter registry, an insertion-ordered PHP array from content type to formatter (`OrderedMap`);
   - how `addFormatter` normalises its `$contentTypes` argument;
   - how `getContentType` chooses a type for a request: the first registered type, or what the external negotiator picks from a non-blank `Accept` header. Any suffix wildcard `/*+` is then rewritten (`SuffixWildcard`);
   - the lookup of the chosen formatter;
   - the response record `handleException` builds.

   The test suite's `HandlerStub` is modelled too. It answers with the exception message.
2. **The Whoops plain-text formatter** (`TextFormatter` module). This covers:
   - the content type it declares;
   - the header line `(<id>) <type>: <message>` and the optional trace;
   - the numbered stack-trace segments;
   - the decision logic of `getArguments`: suppressed, discarded with a notice, or the dump with every line prefixed.

`Strings` holds stand-ins for the PHP built-ins the code calls: `trim`, `strpos`, `str_replace`, `implode`, and the `%d` and `%3d` conversions of `sprintf`. `Wrappers` holds `Option` and `Result`.

Throws and PHP errors become values:
- `addFormatter` returns a `Registration` carrying the exception it would throw.
- `getContentType` and `handleException` return a `Result`.
- The missing-key lookup that PHP would turn into an "on null" error is `Error.UnregisteredType`.

Things outside this code are function parameters:
- The content negotiator is `Negotiator`, a function from the trimmed header and the registered types to an optional pick. `None` stands for "threw" and for "returned no `BaseAccept`".
- A formatter's `formatException` is `Format`.

## Model

| member | source | states |
|---|---|---|
| ExceptionHandler.Candidates | src/Handler/ExceptionHandler.php:65-71 | a null argument falls back to the formatter's declared types, a single value becomes a one-element list holding it, and an array is taken as it is; `AddFormatter`'s contract is stated over this list |
| ExceptionHandler.StringsOf | src/Handler/ExceptionHandler.php:73-78 | the filtered list holds exactly the string values of the input, never more entries than the input, and, when every value is a string, all of them in their original order |
| ExceptionHandler.StringsOfConcat | src/Handler/ExceptionHandler.php:73-78 | filtering keeps order: filtering two lists joined is filtering each and joining the results |
| ExceptionHandler.ContentTypesOf | src/Handler/ExceptionHandler.php:65-78 | a null argument yields the string values the formatter declares, in declaration order; a single value yields a one-element list if it is a string and nothing otherwise; an array yields its string values in array order |
| ExceptionHandler.AddFormatter | src/Handler/ExceptionHandler.php:63-87 | fails with "no content type" exactly when no string survives, and then leaves the registry unchanged; otherwise every surviving type maps to the new formatter and every other type keeps its formatter or stays absent; old keys keep their order and the new ones are appended in order of first occurrence; untouched entries keep their position; duplicate-free registries stay duplicate-free |
| OrderedMap.KeysListsEntries | src/Handler/ExceptionHandler.php:122 | `array_keys` (`Keys`, one key per entry in entry order) lists a key exactly when some entry carries it |
| OrderedMap.IndexOf | src/Handler/ExceptionHandler.php:161 | the position found for a registered key is that of the first entry carrying it, which in a duplicate-free array is the key's only entry |
| OrderedMap.Get | src/Handler/ExceptionHandler.php:161 | a lookup finds a value exactly when the key is registered |
| OrderedMap.GetEntry | src/Handler/ExceptionHandler.php:161 | in a registry without duplicate keys, the lookup of an entry's key finds that entry's formatter |
| OrderedMap.Put | src/Handler/ExceptionHandler.php:85 | writing an existing key keeps the key order, and a new key is appended; the written key then maps to the new value; every other key keeps its value; entries with other keys stay in place; keys stay distinct |
| OrderedMap.NewKeys | src/Handler/ExceptionHandler.php:84-86 | the keys appended by the loop are exactly the written keys that were not yet registered |
| OrderedMap.PutAll | src/Handler/ExceptionHandler.php:84-86 | the loop never drops an entry and adds at most one entry per written key; what it does to keys and values is stated by `PutAllKeys`, `PutAllGet`, `PutAllKeepsEntry` and `PutAllDistinct` |
| OrderedMap.PutAllKeys | src/Handler/ExceptionHandler.php:84-86 | after the loop the key order is the old order followed by the newly written keys in order of first occurrence |
| OrderedMap.PutAllGet | src/Handler/ExceptionHandler.php:84-86 | after the loop each written key maps to the formatter and every other key is unchanged |
| OrderedMap.PutAllKeepsEntry | src/Handler/ExceptionHandler.php:84-86 | an entry whose key is not written keeps its position and value |
| OrderedMap.PutAllDistinct | src/Handler/ExceptionHandler.php:84-86 | the loop never creates a duplicate key |
| Strings.Trim | src/Handler/ExceptionHandler.php:121 | the trimmed header neither starts nor ends with whitespace or NUL, and it is empty exactly when the header consists only of those characters |
| Strings.TrimIsInfix | src/Handler/ExceptionHandler.php:121 | the trimmed header is a contiguous part of the header, and everything cut off before and after it is whitespace or NUL |
| Strings.ContainsIff | src/Handler/ExceptionHandler.php:140 | the `strpos(...) !== false` test (`Contains`) holds exactly when the pattern occurs at some offset of the text |
| Strings.ReplaceAll | src/Handler/ExceptionHandler.php:141 | text without the pattern is returned unchanged, and a replacement no longer than the pattern never lengthens the text |
| ExceptionHandler.GetContentType | src/Handler/ExceptionHandler.php:115-145 | fails with "no formatters" exactly when none are registered; with a blank header, or when negotiation yields nothing, it answers the normalised first registered type; otherwise it answers the normalised pick |
| ExceptionHandler.FailedNegotiationIsNoAccept | src/Handler/ExceptionHandler.php:121-138 | a negotiation that yields nothing gives the same type as a request with no `Accept` header |
| SuffixWildcard.Rewrite | src/Handler/ExceptionHandler.php:141 | the single `str_replace` pass never lengthens the type; its character-level behaviour is stated by `RewriteKeepsFirst`, `RewriteSkipsPlain`, `RewriteRemovesWildcard` and `RewriteLeavesWildcard` |
| SuffixWildcard.Normalise | src/Handler/ExceptionHandler.php:140-142 | a type without a suffix wildcard is returned unchanged, and normalising never lengthens a type |
| SuffixWildcard.RewriteKeepsFirst | src/Handler/ExceptionHandler.php:141 | the rewrite never changes the first character |
| SuffixWildcard.RewriteStarPlus | src/Handler/ExceptionHandler.php:141 | the rewritten text starts with `*+` exactly when the original does |
| SuffixWildcard.RewriteRemovesWildcard | src/Handler/ExceptionHandler.php:141 | without two wildcards in a row, no wildcard is left after the rewrite |
| SuffixWildcard.RewriteLeavesWildcard | src/Handler/ExceptionHandler.php:141 | two wildcards in a row leave a wildcard behind, because the pass does not rescan what it wrote |
| SuffixWildcard.NormaliseLeavesWildcardIff | src/Handler/ExceptionHandler.php:140-144 | the normalised type contains a suffix wildcard if and only if the input contains two in a row |
| SuffixWildcard.NormaliseIdempotent | src/Handler/ExceptionHandler.php:140-144 | normalising twice equals normalising once, for types without two wildcards in a row |
| SuffixWildcard.NoStarNoWildcard | src/Handler/ExceptionHandler.php:140 | a type without a star is never treated as a wildcard pattern |
| SuffixWildcard.RewriteSkipsPlain | src/Handler/ExceptionHandler.php:141 | slash-free text in front passes through the rewrite unchanged |
| SuffixWildcard.NormaliseSuffixPattern | src/Handler/ExceptionHandler.php:140-144 | `type/*+suffix` normalises to `type/suffix` |
| SuffixWildcard.NormaliseDoubleWildcard | src/Handler/ExceptionHandler.php:140-144 | `type/*+*+suffix` normalises to `type/*+suffix`, which still holds a wildcard and changes again when normalised a second time |
| ExceptionHandler.ContentTypeWildcardFree | src/Handler/ExceptionHandler.php:140-144 | the chosen type holds no suffix wildcard as long as no registered type and no negotiator pick contains two in a row |
| ExceptionHandler.GetExceptionOutput | src/Handler/ExceptionHandler.php:156-162 | the output is that of the formatter registered under the chosen type |
| ExceptionHandler.NewResponse | src/Handler/ExceptionHandler.php:100-103 | the response copies the incoming protocol version and the exception's status; its content type is the chosen type followed by `; charset=utf-8`; its body is the output |
| ExceptionHandler.HandleException | src/Handler/ExceptionHandler.php:92-104 | fails with "no formatters" exactly when none are registered; succeeds exactly when the chosen type is a registered key; on success it carries the exception's status, the incoming protocol version, the chosen type with the charset, and the output of the formatter registered under that type |
| ExceptionHandler.ExactAcceptSelectsFormatter | src/Handler/ExceptionHandler.php:92-104 | when the negotiator picks a registered wildcard-free type, the response is typed with it and carries its formatter's output |
| ExceptionHandler.PlainKeysChosenRegistered | src/Handler/ExceptionHandler.php:115-145 | when no registered type has a suffix wildcard and the negotiator picks only registered types, the chosen type is one of the registered types |
| ExceptionHandler.HandleSucceedsForPlainKeys | src/Handler/ExceptionHandler.php:97-98 | the lookup cannot fail when no registered type has a suffix wildcard and the negotiator picks only registered types |
| ExceptionHandler.WildcardKeyBreaksLookup | src/Handler/ExceptionHandler.php:140-161 | a formatter registered only under `type/*+suffix` is looked up as `type/suffix`, which is absent, so the handler fails |
| ExceptionHandler.SingleTypeSelected | src/Handler/ExceptionHandler.php:115-145 | with one wildcard-free type registered and a negotiator that picks that type or nothing, that type is chosen |
| ExceptionHandler.SingleFormatterAnswers | src/Handler/ExceptionHandler.php:92-104 | with one wildcard-free type registered and a negotiator that picks that type or nothing, the response is exactly that type with the charset, the exception's status, the incoming protocol version and the formatter's output |
| ExceptionHandler.StubHandleException | tests/Exception/Stubs/HandlerStub.php:25-31 | the stub succeeds exactly when a formatter is registered, and then answers with the exception's message and status |
| ExceptionHandler.StubAnswersWithMessage | tests/Exception/Stubs/HandlerStub.php:25-31 | with one wildcard-free type registered and a negotiator that picks that type or nothing, the stub's response is that type with the charset, the exception's status and its message |
| TextFormatter.Declared | src/Whoops/Formatter/Text.php:40-45 | the formatter declares exactly the content types of `ContentTypes`, which is `text/plain` alone |
| TextFormatter.RegistersUnderTextPlain | src/Whoops/Formatter/Text.php:40-45 | registered without explicit types, the formatter succeeds and ends up under `text/plain` with every other type unchanged |
| TextFormatter.FirstRegistration | src/Whoops/Formatter/Text.php:40-45 | registered into an empty handler, the formatter is the only entry, under `text/plain` |
| TextFormatter.HandlerAnswersTextPlain | src/Whoops/Formatter/Text.php:40-45 | when the negotiator picks `text/plain` or nothing, a handler holding only this formatter answers with `text/plain; charset=utf-8` and the formatter's output |
| TextFormatter.Header | src/Whoops/Formatter/Text.php:66 | the header line is exactly five characters longer than id, type and message together; it opens with the parenthesised id and a blank, continues with the type, a colon and a blank, and closes with the exception message |
| TextFormatter.GenerateResponse | src/Whoops/Formatter/Text.php:52-67 | the output starts with the header line `(<id>) <type>: <message>` and ends with a newline |
| TextFormatter.NoTraceIsHeaderLine | src/Whoops/Formatter/Text.php:64-66 | with tracing off the output is the header line and one newline |
| TextFormatter.TraceInsertsBlock | src/Whoops/Formatter/Text.php:64-66 | turning tracing on inserts a newline and the trace block before the final newline and changes nothing else |
| TextFormatter.EmptyTrace | src/Whoops/Formatter/Text.php:103 | a trace of no frames is `Stack trace:` and a newline |
| TextFormatter.StackTraceOutput | src/Whoops/Formatter/Text.php:76-104 | the trace opens with `Stack trace:` and a newline; `EmptyTrace` and `TraceAppendsFrame` characterise the rest frame by frame |
| TextFormatter.Segment | src/Whoops/Formatter/Text.php:80-99 | a frame's segment opens with a newline, the padded number, `. ` and the call, and closes with that frame's arguments part; `SegmentShowsLocation` completes it to exactly those pieces |
| TextFormatter.Location | src/Whoops/Formatter/Text.php:81-92 | the location is the call, a blank, the file and a colon, followed by the line number's digits and nothing else |
| TextFormatter.SegmentShowsLocation | src/Whoops/Formatter/Text.php:81-93 | right after the frame number and `. ` a segment shows the frame's whole location, ` <file>:<line>` included, and the segment is exactly as long as the number part, the location and the arguments part together, so nothing else is in it |
| TextFormatter.Segments | src/Whoops/Formatter/Text.php:78-101 | there is one segment per frame, and the frame at position i is rendered with number i + 1, as the running `$line` counter numbers them |
| TextFormatter.Numbered | src/Whoops/Formatter/Text.php:78-101 | `array_map` with a counter starting at 1: one result per frame, the i-th computed from the i-th frame and the number i + 1 |
| TextFormatter.NumberedAppend | src/Whoops/Formatter/Text.php:78-101 | mapping one more frame adds exactly one result, at the end, computed with the next number |
| TextFormatter.SegmentsAppend | src/Whoops/Formatter/Text.php:78-101 | one more frame adds exactly one segment, at the end, numbered one past the frames before it |
| TextFormatter.TraceAppendsFrame | src/Whoops/Formatter/Text.php:76-104 | the trace of a frame list with one more frame is the old trace followed by the new frame's segment |
| TextFormatter.NumberPadded | src/Whoops/Formatter/Text.php:81 | `%3d` (`Number`) right-aligns the frame number's digits in a field of at least three columns, blanks in front |
| TextFormatter.NumberReadsBack | src/Whoops/Formatter/Text.php:81-88 | frame numbers 1 to 999 take exactly three columns: blanks, then the decimal digits, which read back as the number |
| TextFormatter.SegmentStartsWithNumber | src/Whoops/Formatter/Text.php:81-88 | for frames 1 to 999, a segment starts with a newline, the three-column frame number and `. ` |
| TextFormatter.Call | src/Whoops/Formatter/Text.php:81-84 | a frame with an empty class shows `<function>()` without `->`; a frame with a truthy class (`IsFalsy` is PHP's `!$stack['class']`: the empty string and "0") shows `<class>-><function>()` |
| TextFormatter.DiscardNotice | src/Whoops/Formatter/Text.php:134-138 | the notice opens with a newline, the dump prefix and `Arguments dump length greater than `, closes with the limit's digits and ` Bytes. Discarded.`, and is exactly as long as those two parts together |
| TextFormatter.Arguments | src/Whoops/Formatter/Text.php:114-145 | the arguments part is empty exactly when the setting suppresses the frame (`ArgsSuppressed`: the setting is `false`, or a frame count below the frame's number, lines 116-117); a dump longer than the limit becomes exactly the discard notice; otherwise it is a newline followed by the prefixed dump, so every line of it starts with the prefix, and the dump is recovered from it |
| TextFormatter.PrefixLines | src/Whoops/Formatter/Text.php:143 | the prefixed dump starts with the prefix, every newline inside it is followed by the prefix, its last character is the dump's last character (so the final newline every `var_dump` output ends with gets no prefix after it), and a dump without a newline is just the prefix and the dump |
| TextFormatter.PrefixRestKeepsLast | src/Whoops/Formatter/Text.php:143 | nothing is inserted after the last character: the multi-line `^` does not match after a final newline |
| TextFormatter.PrefixRoundTrip | src/Whoops/Formatter/Text.php:143 | removing the prefixes recovers the dump: prefixing only inserts |
| TextFormatter.PrefixRestRoundTrip | src/Whoops/Formatter/Text.php:143 | removing the prefix after each newline undoes inserting it |
| TextFormatter.PrefixRestMarksLines | src/Whoops/Formatter/Text.php:143 | every newline that is not the last character is followed by the prefix |
| Strings.NatToString | src/Whoops/Formatter/Text.php:81 | the `%d` text of a natural number is a non-empty run of decimal digits with no leading zero except for zero itself; `NatToStringRoundTrip` shows it reads back as the number |
| Strings.NatToStringRoundTrip | src/Whoops/Formatter/Text.php:81 | the decimal text of a number reads back as that number |
| Strings.IntToString | src/Whoops/Formatter/Text.php:135 | a non-negative number prints as its digits, and a negative one as `-` followed by the digits of its magnitude |
| Strings.PadLeft | src/Whoops/Formatter/Text.php:81 | the padded text is as wide as the field, or as the text when that is wider; it ends with the text and is filled in front |
| Strings.ConcatEnds | src/Whoops/Formatter/Text.php:103 | `implode('', ...)` (`Concat`) opens with the first part and closes with the last |
| Strings.ConcatAppend | src/Whoops/Formatter/Text.php:103 | joining one more part appends it |

## Left out

- The exception manager, which routes by status code, logs and special-cases `OPTIONS`. It is not part of this model; the manager's test serves only to document the handler's behaviour.
- The content-negotiation algorithm (`Negotiator::getBest`). It is a function parameter. Any type it returns is taken as given, including a type that was never registered.
- PSR-7 and Slim request and response objects, stream writes and header storage. The request is its `Accept` header line, and the response is a record of protocol version, status, content type and body.
- `formatException` (the Whoops formatter trait). It is not part of this model and is a function parameter. The `Text` formatter's output is modelled from the data Whoops extracts.
- Whoops internals: `PlainTextHandler`, `Inspector`, `getExceptionData`, id generation, and the getters for the trace flag, the arguments setting and the dump limit. Their values are inputs. `PlainTextHandler::VAR_DUMP_PREFIX` lives in Whoops; the model uses Whoops' value `"   | "`.
- `var_dump` and output buffering. The dump is an opaque string, one character per byte, so its length is the buffer length.
- PHP's coercion of numeric-string array keys to integers. Keys are kept as strings.
- A frame whose class is absent or null. It is treated as the empty class.
- `addTraceFunctionArgsToOutput()` returning `true` is never a suppression, because PHP compares `true < $line` as booleans. The model states this directly in `ArgsSuppressed`.
- ExceptionHandler.ContentTypeWildcardFree: weaker than "the returned type never contains `/*+`". `str_replace` makes one pass, so a type holding `/*+*+` comes out still containing `/*+` (see `SuffixWildcard.NormaliseDoubleWildcard`). The unconditional claim is false of the code. The model follows the code and proves the claim only for types without a doubled wildcard.
- SuffixWildcard.NormaliseIdempotent: holds only for types without two wildcards in a row, for the same reason.
- TextFormatter.NumberReadsBack: stated for frame numbers up to 999. Beyond that, `%3d` prints more than three columns; `Strings.PadLeft` covers that case.

=== FILE: exception_handler.dfy ===
/** The HTTP exception handler: a registry of formatters keyed by content
    type, the choice of content type for a request, and the error response
    built from the chosen formatter's output. */
module ExceptionHandler {
  import opened Wrappers
  import opened Strings
  import opened OrderedMap
  import opened SuffixWildcard

  /** A PHP value given where a content type is expected: a string, or any
      other value (an integer, null, an object, a nested array...). */
  datatype Value = Str(s: string) | NonString

  /** The `$contentTypes` argument of `addFormatter`: omitted (null), a single
      non-array value, or an array of values. */
  datatype ContentTypesArg = Null | Scalar(v: Value) | List(items: seq<Value>)

  /** The ways the handler fails. The first two are the `RuntimeException`s
      it throws; the third is the PHP error raised when the chosen type has no
      entry and `formatException` is called on null. */
  datatype Error =
    | NoContentType
    | NoFormatters
    | UnregisteredType(contentType: string)

  /** The formatter table: content type to formatter, in registration order. */
  type Registry<F> = seq<Entry<string, F>>

  /** The formatter table after `addFormatter`, and the exception it threw. */
  datatype Registration<F> = Registration(formatters: Registry<F>, failure: Option<Error>)

  /** The part of the request the handler reads: the `Accept` header line,
      empty when the header is absent. */
  datatype Request = Request(accept: string)

  datatype HttpException = HttpException(statusCode: int, message: string)

  /** A response, reduced to what the handler sets or reads. */
  datatype Response = Response(protocolVersion: string, status: int, contentType: string, body: string)

  /** `Negotiator::getBest($header, $priorities)`, reduced to the type it
      picks; `None` when it throws or returns something that is not a
      `BaseAccept`. */
  type Negotiator = (string, seq<string>) -> Option<string>

  /** `HttpExceptionFormatter::formatException($exception, $request)`. */
  type Format<!F> = (F, HttpException, Request) -> string

  const Charset := "; charset=utf-8"

  /** The list `addFormatter` works on before filtering: the formatter's
      declared types when the argument is null, a one-element list for a
      single value, the array itself otherwise. */
  function Candidates(arg: ContentTypesArg, declared: seq<Value>): (r: seq<Value>)
    ensures arg.Null? ==> r == declared
    ensures arg.Scalar? ==> |r| == 1 && r[0] == arg.v
    ensures arg.List? ==> r == arg.items
  {
    match arg
    case Null => declared
    case Scalar(v) => [v]
    case List(items) => items
  }

  /** PHP `array_filter($values, 'is_string')`, in order. */
  function StringsOf(vs: seq<Value>): (r: seq<string>)
    ensures forall t :: t in r <==> Str(t) in vs
    ensures |r| <= |vs|
    ensures (forall i :: 0 <= i < |vs| ==> vs[i].Str?) ==> r == seq(|vs|, i requires 0 <= i < |vs| => vs[i].s)
  {
    if |vs| == 0 then []
    else if vs[0].Str? then [vs[0].s] + StringsOf(vs[1..])
    else StringsOf(vs[1..])
  }

  /** The filter keeps the order of its input: filtering two lists one after
      the other is filtering their concatenation. */
  lemma {:induction false} StringsOfConcat(a: seq<Value>, b: seq<Value>)
    ensures StringsOf(a + b) == StringsOf(a) + StringsOf(b)
    decreases |a|
  {
    if |a| > 0 {
      assert (a + b)[1..] == a[1..] + b;
      StringsOfConcat(a[1..], b);
    } else {
      assert a + b == b;
    }
  }

  /** The content types `addFormatter` registers the formatter under. */
  function ContentTypesOf(arg: ContentTypesArg, declared: seq<Value>): (r: seq<string>)
    ensures arg.Null? ==> r == StringsOf(declared) && forall t :: t in r <==> Str(t) in declared
    ensures arg.Scalar? ==> r == if arg.v.Str? then [arg.v.s] else []
    ensures arg.List? ==> r == StringsOf(arg.items) && forall t :: t in r <==> Str(t) in arg.items
  {
    StringsOf(Candidates(arg, declared))
  }

  /** `addFormatter($formatter, $contentTypes)`. */
  function AddFormatter<F>(reg: Registry<F>, f: F, declared: seq<Value>, arg: ContentTypesArg)
    : (r: Registration<F>)
    ensures r.failure.Some? <==> forall v :: v in Candidates(arg, declared) ==> !v.Str?
    ensures r.failure.Some? ==> r.failure.value == NoContentType && r.formatters == reg
    ensures r.failure.None? ==>
      forall t :: Get(r.formatters, t) == if Str(t) in Candidates(arg, declared) then Some(f) else Get(reg, t)
    ensures r.failure.None? ==>
      Keys(r.formatters) == Keys(reg) + NewKeys(Keys(reg), ContentTypesOf(arg, declared))
    ensures r.failure.None? ==>
      forall i :: 0 <= i < |reg| && Str(reg[i].key) !in Candidates(arg, declared) ==> r.formatters[i] == reg[i]
    ensures DistinctKeys(reg) ==> DistinctKeys(r.formatters)
  {
    var types := ContentTypesOf(arg, declared);
    if |types| == 0 then
      Registration(reg, Some(NoContentType))
    else
      assert types[0] in types;
      var next := PutAll(reg, types, f);
      forall t ensures Get(next, t) == if Str(t) in Candidates(arg, declared) then Some(f) else Get(reg, t) {
        PutAllGet(reg, types, f, t);
      }
      PutAllKeys(reg, types, f);
      assert |next| == |Keys(next)| >= |Keys(reg)| == |reg|;
      forall i | 0 <= i < |reg| && Str(reg[i].key) !in Candidates(arg, declared) ensures next[i] == reg[i] {
        PutAllKeepsEntry(reg, types, f, i);
      }
      assert DistinctKeys(reg) ==> DistinctKeys(next) by {
        if DistinctKeys(reg) {
          PutAllDistinct(reg, types, f);
        }
      }
      Registration(next, None)
  }

  /** `getContentType($request)`: the first registered type, or the
      negotiator's pick when the trimmed `Accept` header is not empty and
      negotiation succeeds, with each `Wildcard` in the chosen type replaced
      by a slash in a single pass. */
  function GetContentType<F>(reg: Registry<F>, req: Request, negotiate: Negotiator): (r: Result<string, Error>)
    ensures r.Failure? <==> |reg| == 0
    ensures r.Failure? ==> r.error == NoFormatters
    ensures |reg| > 0 && AllTrimmable(req.accept) ==> r == Success(Normalise(reg[0].key))
    ensures |reg| > 0 && negotiate(Trim(req.accept), Keys(reg)).None? ==> r == Success(Normalise(reg[0].key))
    ensures |reg| > 0 && !AllTrimmable(req.accept) && negotiate(Trim(req.accept), Keys(reg)).Some? ==>
      r == Success(Normalise(negotiate(Trim(req.accept), Keys(reg)).value))
  {
    if |reg| == 0 then Failure(NoFormatters)
    else
      var header := Trim(req.accept);
      var priorities := Keys(reg);
      var chosen := if header == "" then priorities[0] else negotiate(header, priorities).GetOr(priorities[0]);
      Success(Normalise(chosen))
  }

  /** `getExceptionOutput($contentType, ...)`: the output of the formatter
      registered under `contentType`. */
  function GetExceptionOutput<F>(reg: Registry<F>, contentType: string, exc: HttpException, req: Request, format: Format<F>)
    : (out: string)
    requires contentType in Keys(reg)
    ensures DistinctKeys(reg) ==>
      forall i :: 0 <= i < |reg| && reg[i].key == contentType ==> out == format(reg[i].value, exc, req)
  {
    assert DistinctKeys(reg) ==>
      forall i :: 0 <= i < |reg| && reg[i].key == contentType ==> Get(reg, contentType) == Some(reg[i].value)
    by {
      if DistinctKeys(reg) {
        forall i | 0 <= i < |reg| && reg[i].key == contentType
          ensures Get(reg, contentType) == Some(reg[i].value)
        {
          GetEntry(reg, i);
        }
      }
    }
    format(Get(reg, contentType).value, exc, req)
  }

  /** `getNewResponse($body)` followed by `withProtocolVersion`, `withStatus`
      and `withHeader('Content-Type', ...)`. */
  function NewResponse(incoming: Response, exc: HttpException, contentType: string, body: string): (r: Response)
    ensures r.protocolVersion == incoming.protocolVersion && r.status == exc.statusCode
    ensures |r.contentType| == |contentType| + |Charset|
    ensures r.contentType[..|contentType|] == contentType && r.contentType[|contentType|..] == Charset
    ensures r.body == body
  {
    Response(incoming.protocolVersion, exc.statusCode, contentType + Charset, body)
  }

  /** `handleException($request, $response, $exception)`. */
  function HandleException<F>(reg: Registry<F>, req: Request, incoming: Response, exc: HttpException,
                              negotiate: Negotiator, format: Format<F>): (r: Result<Response, Error>)
    ensures r == Failure(NoFormatters) <==> |reg| == 0
    ensures r.Success? <==>
      GetContentType(reg, req, negotiate).Success? && GetContentType(reg, req, negotiate).value in Keys(reg)
    ensures r.Success? ==>
      var ct := GetContentType(reg, req, negotiate).value;
      && r.value.status == exc.statusCode
      && r.value.protocolVersion == incoming.protocolVersion
      && r.value.contentType == ct + Charset
      && r.value.body == format(Get(reg, ct).value, exc, req)
  {
    match GetContentType(reg, req, negotiate)
    case Failure(e) => Failure(e)
    case Success(ct) =>
      if ct !in Keys(reg) then Failure(UnregisteredType(ct))
      else Success(NewResponse(incoming, exc, ct, GetExceptionOutput(reg, ct, exc, req, format)))
  }

  /** `handleException` of the test suite's handler stub, whose
      `getExceptionOutput` returns the exception message and looks nothing
      up. */
  function StubHandleException<F>(reg: Registry<F>, req: Request, incoming: Response, exc: HttpException,
                                  negotiate: Negotiator): (r: Result<Response, Error>)
    ensures r.Success? <==> |reg| > 0
    ensures r.Failure? ==> r.error == NoFormatters
    ensures r.Success? ==>
      && r.value.body == exc.message
      && r.value.status == exc.statusCode
      && r.value.protocolVersion == incoming.protocolVersion
      && r.value.contentType == GetContentType(reg, req, negotiate).value + Charset
  {
    match GetContentType(reg, req, negotiate)
    case Failure(e) => Failure(e)
    case Success(ct) => Success(NewResponse(incoming, exc, ct, exc.message))
  }

  /** A failed negotiation is indistinguishable from a request without an
      `Accept` header. */
  lemma FailedNegotiationIsNoAccept<F>(reg: Registry<F>, req: Request, negotiate: Negotiator)
    requires negotiate(Trim(req.accept), Keys(reg)).None?
    ensures GetContentType(reg, req, negotiate) == GetContentType(reg, Request(""), negotiate)
  {
  }

  /** The selected type carries no suffix wildcard as long as neither the
      registered types nor the negotiator's pick hold two wildcards in a row. */
  lemma ContentTypeWildcardFree<F>(reg: Registry<F>, req: Request, negotiate: Negotiator)
    requires |reg| > 0
    requires forall i :: 0 <= i < |reg| ==> !Contains(reg[i].key, DoubleWildcard)
    requires var n := negotiate(Trim(req.accept), Keys(reg)); n.Some? ==> !Contains(n.value, DoubleWildcard)
    ensures !Contains(GetContentType(reg, req, negotiate).value, Wildcard)
  {
    var n := negotiate(Trim(req.accept), Keys(reg));
    if !AllTrimmable(req.accept) && n.Some? {
      NormaliseLeavesWildcardIff(n.value);
    } else {
      NormaliseLeavesWildcardIff(reg[0].key);
    }
  }

  /** When the header names a registered, wildcard-free type and the
      negotiator picks it, the response carries that type and the output of
      the formatter registered under it. */
  lemma ExactAcceptSelectsFormatter<F>(reg: Registry<F>, i: nat, req: Request, incoming: Response,
                                       exc: HttpException, negotiate: Negotiator, format: Format<F>)
    requires DistinctKeys(reg) && i < |reg|
    requires !Contains(reg[i].key, Wildcard)
    requires !AllTrimmable(req.accept) && negotiate(Trim(req.accept), Keys(reg)) == Some(reg[i].key)
    ensures HandleException(reg, req, incoming, exc, negotiate, format)
         == Success(Response(incoming.protocolVersion, exc.statusCode, reg[i].key + Charset,
                             format(reg[i].value, exc, req)))
  {
    assert Keys(reg)[i] == reg[i].key;
    GetEntry(reg, i);
  }

  /** With wildcard-free keys and a negotiator that picks only registered
      types, the chosen type is a registered key. */
  lemma PlainKeysChosenRegistered<F>(reg: Registry<F>, req: Request, negotiate: Negotiator)
    requires |reg| > 0
    requires forall i :: 0 <= i < |reg| ==> !Contains(reg[i].key, Wildcard)
    requires var n := negotiate(Trim(req.accept), Keys(reg)); n.Some? ==> n.value in Keys(reg)
    ensures GetContentType(reg, req, negotiate).Success?
    ensures GetContentType(reg, req, negotiate).value in Keys(reg)
  {
    var n := negotiate(Trim(req.accept), Keys(reg));
    var chosen := if !AllTrimmable(req.accept) && n.Some? then n.value else reg[0].key;
    var j :| 0 <= j < |Keys(reg)| && Keys(reg)[j] == chosen;
    assert reg[j].key == chosen;
    assert !Contains(chosen, Wildcard);
    assert GetContentType(reg, req, negotiate) == Success(chosen);
  }

  /** The formatter lookup cannot fail when no registered type contains a
      suffix wildcard and the negotiator only ever picks registered types. */
  lemma HandleSucceedsForPlainKeys<F>(reg: Registry<F>, req: Request, incoming: Response,
                                      exc: HttpException, negotiate: Negotiator, format: Format<F>)
    requires |reg| > 0
    requires forall i :: 0 <= i < |reg| ==> !Contains(reg[i].key, Wildcard)
    requires var n := negotiate(Trim(req.accept), Keys(reg)); n.Some? ==> n.value in Keys(reg)
    ensures HandleException(reg, req, incoming, exc, negotiate, format).Success?
  {
    PlainKeysChosenRegistered(reg, req, negotiate);
  }

  /** A type registered with a suffix wildcard is rewritten before the
      lookup, so the lookup misses and the handler fails. */
  lemma WildcardKeyBreaksLookup<F>(f: F, tp: string, suffix: string, req: Request, incoming: Response,
                                   exc: HttpException, negotiate: Negotiator, format: Format<F>)
    requires NoSlash(tp) && NoSlash(suffix)
    requires AllTrimmable(req.accept)
    ensures HandleException([Entry(tp + Wildcard + suffix, f)], req, incoming, exc, negotiate, format)
         == Failure(UnregisteredType(tp + "/" + suffix))
  {
    NormaliseSuffixPattern(tp, suffix);
    var reg := [Entry(tp + Wildcard + suffix, f)];
    assert Keys(reg) == [tp + Wildcard + suffix];
    assert |tp + "/" + suffix| < |tp + Wildcard + suffix|;
  }

  /** With a single wildcard-free type registered, the handler settles on
      that type whenever the negotiator can pick nothing else. */
  lemma SingleTypeSelected<F>(f: F, contentType: string, req: Request, negotiate: Negotiator)
    requires !Contains(contentType, Wildcard)
    requires negotiate(Trim(req.accept), [contentType]).GetOr(contentType) == contentType
    ensures GetContentType([Entry(contentType, f)], req, negotiate) == Success(contentType)
  {
    var reg := [Entry(contentType, f)];
    assert Keys(reg) == [contentType];
  }

  /** The stub handler of the test suite answers with the exception's own
      status and message, typed as the single registered content type when
      the negotiator can only pick that type. */
  lemma StubAnswersWithMessage<F>(f: F, contentType: string, req: Request, incoming: Response,
                                  exc: HttpException, negotiate: Negotiator)
    requires !Contains(contentType, Wildcard)
    requires negotiate(Trim(req.accept), [contentType]).GetOr(contentType) == contentType
    ensures StubHandleException([Entry(contentType, f)], req, incoming, exc, negotiate)
         == Success(Response(incoming.protocolVersion, exc.statusCode, contentType + Charset, exc.message))
  {
    SingleTypeSelected(f, contentType, req, negotiate);
  }

  /** A handler with a single wildcard-free type answers with that type and
      its formatter's output whenever the negotiator can only pick it. */
  lemma SingleFormatterAnswers<F>(f: F, contentType: string, req: Request, incoming: Response,
                                  exc: HttpException, negotiate: Negotiator, format: Format<F>)
    requires !Contains(contentType, Wildcard)
    requires negotiate(Trim(req.accept), [contentType]).GetOr(contentType) == contentType
    ensures HandleException([Entry(contentType, f)], req, incoming, exc, negotiate, format)
         == Success(Response(incoming.protocolVersion, exc.statusCode, contentType + Charset,
                             format(f, exc, req)))
  {
    var reg := [Entry(contentType, f)];
    SingleTypeSelected(f, contentType, req, negotiate);
    assert Keys(reg) == [contentType];
    assert Get(reg, contentType) == Some(f);
  }
}

=== FILE: ordered_map.dfy ===
/** An insertion-ordered map with the write semantics of a PHP array:
    assigning to a key that is present replaces its value where it stands,
    and assigning to a new key appends it at the end. */
module OrderedMap {
  import opened Wrappers

  datatype Entry<K, V> = Entry(key: K, value: V)

  /** The keys in order, as PHP `array_keys` lists them. */
  function Keys<K, V>(m: seq<Entry<K, V>>): seq<K> {
    seq(|m|, i requires 0 <= i < |m| => m[i].key)
  }

  /** A key is listed exactly when some entry carries it. */
  lemma KeysListsEntries<K, V>(m: seq<Entry<K, V>>, k: K)
    ensures k in Keys(m) <==> exists i :: 0 <= i < |m| && m[i].key == k
  {
    if k in Keys(m) {
      var i :| 0 <= i < |Keys(m)| && Keys(m)[i] == k;
      assert m[i].key == k;
    }
    if exists i :: 0 <= i < |m| && m[i].key == k {
      var i :| 0 <= i < |m| && m[i].key == k;
      assert Keys(m)[i] == k;
    }
  }

  /** The invariant every PHP array keeps: no key appears twice. */
  predicate DistinctKeys<K(==), V>(m: seq<Entry<K, V>>) {
    forall i, j :: 0 <= i < j < |m| ==> m[i].key != m[j].key
  }

  /** The position of the first entry with key `k`. */
  function IndexOf<K(==), V>(m: seq<Entry<K, V>>, k: K): (i: nat)
    requires k in Keys(m)
    ensures i < |m| && m[i].key == k
    ensures forall j :: 0 <= j < i ==> m[j].key != k
  {
    if m[0].key == k then 0
    else
      assert k in Keys(m[1..]) by {
        var t :| 0 <= t < |m| && Keys(m)[t] == k;
        assert Keys(m[1..])[t - 1] == k;
      }
      1 + IndexOf(m[1..], k)
  }

  /** `IndexOf` finds exactly the first entry with key `k`. */
  lemma IndexOfIs<K, V>(m: seq<Entry<K, V>>, k: K, i: nat)
    requires i < |m| && m[i].key == k
    requires forall j :: 0 <= j < i ==> m[j].key != k
    ensures k in Keys(m) && IndexOf(m, k) == i
  {
    assert Keys(m)[i] == k;
  }

  /** The value stored under `k`, if any: PHP `$m[$k]` guarded by `isset`. */
  function Get<K(==), V>(m: seq<Entry<K, V>>, k: K): (r: Option<V>)
    ensures r.Some? <==> k in Keys(m)
  {
    if k in Keys(m) then Some(m[IndexOf(m, k)].value) else None
  }

  /** In a map without duplicate keys, each entry is what `Get` finds. */
  lemma GetEntry<K, V>(m: seq<Entry<K, V>>, i: nat)
    requires DistinctKeys(m) && i < |m|
    ensures Get(m, m[i].key) == Some(m[i].value)
  {
    assert Keys(m)[i] == m[i].key;
  }

  /** PHP `$m[$k] = $v`. */
  function Put<K(==,!new), V>(m: seq<Entry<K, V>>, k: K, v: V): (r: seq<Entry<K, V>>)
    ensures Keys(r) == if k in Keys(m) then Keys(m) else Keys(m) + [k]
    ensures Get(r, k) == Some(v)
    ensures forall k' :: k' != k ==> Get(r, k') == Get(m, k')
    ensures forall i :: 0 <= i < |m| && m[i].key != k ==> r[i] == m[i]
    ensures DistinctKeys(m) ==> DistinctKeys(r)
  {
    if k in Keys(m) then
      var i := IndexOf(m, k);
      var r := m[i := Entry(k, v)];
      assert Keys(r) == Keys(m);
      IndexOfIs(r, k, i);
      forall k' | k' in Keys(m)
        ensures IndexOf(r, k') == IndexOf(m, k')
      {
        IndexOfIs(r, k', IndexOf(m, k'));
      }
      r
    else
      var r := m + [Entry(k, v)];
      assert Keys(r) == Keys(m) + [k];
      assert forall i :: 0 <= i < |m| ==> m[i].key != k by {
        forall i | 0 <= i < |m| ensures m[i].key != k {
          assert Keys(m)[i] == m[i].key;
        }
      }
      IndexOfIs(r, k, |m|);
      forall k' | k' in Keys(m)
        ensures IndexOf(r, k') == IndexOf(m, k')
      {
        IndexOfIs(r, k', IndexOf(m, k'));
      }
      r
  }

  /** The keys of `ks` that are not in `seen`, each once, in the order of
      their first occurrence in `ks`. */
  function NewKeys<K(==,!new)>(seen: seq<K>, ks: seq<K>): (r: seq<K>)
    ensures forall x :: x in r <==> x in ks && x !in seen
    decreases |ks|
  {
    if |ks| == 0 then []
    else if ks[0] in seen then NewKeys(seen, ks[1..])
    else [ks[0]] + NewKeys(seen + [ks[0]], ks[1..])
  }

  /** PHP `foreach ($ks as $k) { $m[$k] = $v; }`. */
  function PutAll<K(==,!new), V>(m: seq<Entry<K, V>>, ks: seq<K>, v: V): (r: seq<Entry<K, V>>)
    ensures |m| <= |r| <= |m| + |ks|
    decreases |ks|
  {
    if |ks| == 0 then m else PutAll(Put(m, ks[0], v), ks[1..], v)
  }

  /** Keys already present keep their positions; the new ones are appended
      in the order of their first occurrence in `ks`. */
  lemma {:induction false} PutAllKeys<K(!new), V>(m: seq<Entry<K, V>>, ks: seq<K>, v: V)
    ensures Keys(PutAll(m, ks, v)) == Keys(m) + NewKeys(Keys(m), ks)
    decreases |ks|
  {
    if |ks| > 0 {
      var k0, rest := ks[0], ks[1..];
      var m' := Put(m, k0, v);
      PutAllKeys(m', rest, v);
      assert PutAll(m, ks, v) == PutAll(m', rest, v);
      var seen := Keys(m);
      if k0 !in seen {
        var tail := NewKeys(seen + [k0], rest);
        assert NewKeys(seen, ks) == [k0] + tail;
        assert Keys(m') == seen + [k0];
        assert (seen + [k0]) + tail == seen + ([k0] + tail);
      } else {
        assert NewKeys(seen, ks) == NewKeys(seen, rest);
      }
    }
  }

  /** Every key of `ks` ends up mapped to `v`; every other key keeps its value
      (or stays absent). */
  lemma {:induction false} PutAllGet<K(!new), V>(m: seq<Entry<K, V>>, ks: seq<K>, v: V, k: K)
    ensures Get(PutAll(m, ks, v), k) == if k in ks then Some(v) else Get(m, k)
    decreases |ks|
  {
    if |ks| > 0 {
      PutAllGet(Put(m, ks[0], v), ks[1..], v, k);
      assert k in ks <==> k == ks[0] || k in ks[1..];
    }
  }

  /** Entries whose key is not written stay exactly where and what they were. */
  lemma {:induction false} PutAllKeepsEntry<K(!new), V>(m: seq<Entry<K, V>>, ks: seq<K>, v: V, i: nat)
    requires i < |m| && m[i].key !in ks
    ensures i < |PutAll(m, ks, v)| && PutAll(m, ks, v)[i] == m[i]
    decreases |ks|
  {
    if |ks| > 0 {
      var m' := Put(m, ks[0], v);
      assert ks == [ks[0]] + ks[1..];
      assert |Keys(m')| >= |Keys(m)|;
      PutAllKeepsEntry(m', ks[1..], v, i);
    }
  }

  /** Writing keys one by one never introduces a duplicate key. */
  lemma {:induction false} PutAllDistinct<K(!new), V>(m: seq<Entry<K, V>>, ks: seq<K>, v: V)
    requires DistinctKeys(m)
    ensures DistinctKeys(PutAll(m, ks, v))
    decreases |ks|
  {
    if |ks| > 0 {
      PutAllDistinct(Put(m, ks[0], v), ks[1..], v);
    }
  }
}

=== FILE: strings.dfy ===
/** String helpers that stand in for the PHP built-ins the core calls:
    `trim`, `strpos`, `str_replace` and the `%d` / `%3d` conversions of
    `sprintf`. Strings are sequences of characters, one character per byte. */
module Strings {

  /** The characters PHP's `trim` strips when no character list is given:
      space, tab, line feed, carriage return, NUL and vertical tab. */
  predicate IsTrimmable(c: char) {
    c == ' ' || c == '\t' || c == '\n' || c == '\r' || c == '\0' || c == '\U{B}'
  }

  predicate AllTrimmable(s: string) {
    forall i :: 0 <= i < |s| ==> IsTrimmable(s[i])
  }

  /** Drops the leading trimmable characters. */
  function TrimLeft(s: string): (r: string)
    ensures |r| <= |s| && r == s[|s| - |r|..]
    ensures AllTrimmable(s[..|s| - |r|])
    ensures r == [] || !IsTrimmable(r[0])
  {
    if |s| > 0 && IsTrimmable(s[0]) then
      var t := s[1..];
      var r := TrimLeft(t);
      assert t[|t| - |r|..] == s[|s| - |r|..];
      assert AllTrimmable(s[..|s| - |r|]) by {
        var d := s[..|s| - |r|];
        forall i | 0 <= i < |d| ensures IsTrimmable(d[i]) {
          if i > 0 { assert d[i] == t[..|t| - |r|][i - 1]; }
        }
      }
      r
    else
      s
  }

  /** Drops the trailing trimmable characters. */
  function TrimRight(s: string): (r: string)
    ensures |r| <= |s| && r == s[..|r|]
    ensures AllTrimmable(s[|r|..])
    ensures r == [] || !IsTrimmable(r[|r| - 1])
  {
    if |s| > 0 && IsTrimmable(s[|s| - 1]) then
      var t := s[..|s| - 1];
      var r := TrimRight(t);
      assert t[..|r|] == s[..|r|];
      assert AllTrimmable(s[|r|..]) by {
        var d := s[|r|..];
        forall i | 0 <= i < |d| ensures IsTrimmable(d[i]) {
          if i < |d| - 1 { assert d[i] == t[|r|..][i]; }
        }
      }
      r
    else
      s
  }

  /** `r` sits at offset `i` of `s` with only trimmable characters around it. */
  predicate TrimmedAt(s: string, r: string, i: int) {
    0 <= i <= |s| - |r| && s[i..i + |r|] == r && AllTrimmable(s[..i]) && AllTrimmable(s[i + |r|..])
  }

  /** A prefix `r` of a suffix `l` of `s`, with only trimmable characters
      cut off around it, sits in `s` where `l` starts. */
  lemma TrimmedInfix(s: string, l: string, r: string)
    requires |l| <= |s| && l == s[|s| - |l|..] && AllTrimmable(s[..|s| - |l|])
    requires |r| <= |l| && r == l[..|r|] && AllTrimmable(l[|r|..])
    ensures TrimmedAt(s, r, |s| - |l|)
  {
    var i := |s| - |l|;
    assert s[i..i + |r|] == l[..|r|];
    assert s[i + |r|..] == l[|r|..];
  }

  /** PHP `trim`: the longest infix of `s` that neither starts nor ends
      with a trimmable character. */
  function Trim(s: string): (r: string)
    ensures r == [] || (!IsTrimmable(r[0]) && !IsTrimmable(r[|r| - 1]))
    ensures r == [] <==> AllTrimmable(s)
  {
    var l := TrimLeft(s);
    var r := TrimRight(l);
    if r == [] then
      // every character of `l` is trimmable, so `TrimLeft` left nothing
      assert l[0..] == l;
      assert |l| == 0;
      assert s[..|s|] == s;
      r
    else
      assert r[0] == l[0] == s[|s| - |l|];
      r
  }

  /** `trim` removes only characters at the ends: the result sits in the
      input with nothing but trimmable characters before and after it. */
  lemma TrimIsInfix(s: string)
    ensures exists i :: TrimmedAt(s, Trim(s), i)
  {
    var l := TrimLeft(s);
    assert Trim(s) == TrimRight(l);
    TrimmedInfix(s, l, TrimRight(l));
    assert TrimmedAt(s, Trim(s), |s| - |l|);
  }

  /** `pat` occurs in `s` at offset `i`. */
  predicate OccursAt(s: string, pat: string, i: int) {
    0 <= i && i + |pat| <= |s| && s[i..i + |pat|] == pat
  }

  predicate StartsWith(s: string, pat: string) {
    |pat| <= |s| && s[..|pat|] == pat
  }

  /** `s` ends with `pat`. */
  predicate EndsWith(s: string, pat: string) {
    |pat| <= |s| && s[|s| - |pat|..] == pat
  }

  /** PHP `strpos($s, $pat) !== false`: `pat` occurs somewhere in `s`. */
  predicate Contains(s: string, pat: string)
    decreases |s|
  {
    if |s| < |pat| then false
    else s[..|pat|] == pat || Contains(s[1..], pat)
  }

  /** An occurrence in the tail is an occurrence in the whole. */
  lemma ContainsTail(s: string, pat: string)
    requires |s| > 0 && Contains(s[1..], pat)
    ensures Contains(s, pat)
  {
  }

  /** An occurrence cannot start at a character that differs from the
      pattern's first one, so it lies in the tail. */
  lemma ContainsSkip(s: string, pat: string)
    requires |pat| > 0 && |s| > 0 && s[0] != pat[0] && Contains(s, pat)
    ensures Contains(s[1..], pat)
  {
  }

  /** An occurrence in any suffix is an occurrence in the whole. */
  lemma {:induction false} ContainsDrop(s: string, pat: string, n: nat)
    ensures n <= |s| && Contains(s[n..], pat) ==> Contains(s, pat)
    decreases n
  {
    if 0 < n <= |s| {
      ContainsDrop(s[1..], pat, n - 1);
      assert s[1..][n - 1..] == s[n..];
      if Contains(s[1..], pat) {
        ContainsTail(s, pat);
      }
    }
  }

  /** Matching a pattern one character at a time. */
  lemma StartsWithCons(c: char, x: string, pat: string)
    requires |pat| > 0
    ensures StartsWith([c] + x, pat) <==> c == pat[0] && StartsWith(x, pat[1..])
  {
    if |pat| <= |x| + 1 {
      assert ([c] + x)[..|pat|] == [c] + x[..|pat| - 1];
    }
  }

  /** A string built as `a + ((b + c) + d)` starts with `a + b` and ends with `d`. */
  lemma Framed(a: string, b: string, c: string, d: string)
    ensures var s := a + ((b + c) + d);
      StartsWith(s, a + b) && EndsWith(s, d)
  {
    var s := a + ((b + c) + d);
    assert s[..|a + b|] == a + b;
  }

  /** A string built as `a + (b + c)` starts with `a + b` and ends with `c`. */
  lemma Joined(a: string, b: string, c: string)
    ensures var s := a + (b + c);
      StartsWith(s, a + b) && EndsWith(s, c) && |s| == |a| + |b| + |c|
  {
    var s := a + (b + c);
    assert s[..|a + b|] == a + b;
  }

  /** `Contains` finds an occurrence exactly when there is one at some offset. */
  lemma ContainsIff(s: string, pat: string)
    ensures Contains(s, pat) <==> exists i :: OccursAt(s, pat, i)
  {
    if Contains(s, pat) {
      ContainsOccurs(s, pat);
    } else {
      forall i | OccursAt(s, pat, i) ensures false {
        ContainsAt(s, pat, i);
      }
    }
  }

  lemma {:induction false} ContainsOccurs(s: string, pat: string)
    requires Contains(s, pat)
    ensures exists i :: OccursAt(s, pat, i)
    decreases |s|
  {
    if s[..|pat|] == pat {
      assert OccursAt(s, pat, 0);
    } else {
      ContainsOccurs(s[1..], pat);
      var i :| OccursAt(s[1..], pat, i);
      assert s[i + 1..i + 1 + |pat|] == s[1..][i..i + |pat|];
      assert OccursAt(s, pat, i + 1);
    }
  }

  /** Matching a concatenated pattern one part at a time. */
  lemma StartsWithConcat(t: string, a: string, b: string)
    ensures StartsWith(t, a + b) <==> StartsWith(t, a) && StartsWith(t[|a|..], b)
  {
    if |a| + |b| <= |t| {
      assert t[..|a| + |b|] == t[..|a|] + t[|a|..][..|b|];
    }
  }

  /** An occurrence at any offset makes `Contains` hold. */
  lemma {:induction false} ContainsAt(s: string, pat: string, i: nat)
    requires OccursAt(s, pat, i)
    ensures Contains(s, pat)
    decreases i
  {
    if i > 0 {
      assert s[1..][i - 1..i - 1 + |pat|] == s[i..i + |pat|];
      ContainsAt(s[1..], pat, i - 1);
      ContainsTail(s, pat);
    }
  }

  /** Where a pattern occurs, so does each of its prefixes. */
  lemma {:induction false} ContainsPrefix(s: string, pat: string, pre: string)
    requires Contains(s, pat) && StartsWith(pat, pre)
    ensures Contains(s, pre)
    decreases |s|
  {
    if s[..|pat|] == pat {
      assert s[..|pre|] == pat[..|pre|];
    } else {
      ContainsPrefix(s[1..], pat, pre);
      ContainsTail(s, pre);
    }
  }

  /** PHP `str_replace($pat, $rep, $s)` for one non-empty pattern: a single
      left-to-right scan that replaces non-overlapping occurrences and never
      looks at the text it has just written. */
  function ReplaceAll(s: string, pat: string, rep: string): (r: string)
    requires |pat| > 0
    ensures !Contains(s, pat) ==> r == s
    ensures |rep| <= |pat| ==> |r| <= |s|
    decreases |s|
  {
    if |s| < |pat| then s
    else if s[..|pat|] == pat then rep + ReplaceAll(s[|pat|..], pat, rep)
    else [s[0]] + ReplaceAll(s[1..], pat, rep)
  }

  predicate IsDigit(c: char) {
    '0' <= c <= '9'
  }

  function DigitChar(d: nat): (c: char)
    requires d < 10
    ensures IsDigit(c)
  {
    "0123456789"[d]
  }

  function DigitValue(c: char): (d: nat)
    requires IsDigit(c)
    ensures d < 10 && DigitChar(d) == c
  {
    (c as int - '0' as int) as nat
  }

  /** The decimal text of a natural number, as `sprintf('%d', $n)` writes it. */
  function NatToString(n: nat): (r: string)
    ensures |r| > 0
    ensures forall i :: 0 <= i < |r| ==> IsDigit(r[i])
    ensures r[0] == '0' ==> n == 0
  {
    if n < 10 then [DigitChar(n)]
    else NatToString(n / 10) + [DigitChar(n % 10)]
  }

  /** Reads a string of decimal digits back as a number. */
  function ParseNat(s: string): nat
    requires forall i :: 0 <= i < |s| ==> IsDigit(s[i])
  {
    if |s| == 0 then 0
    else ParseNat(s[..|s| - 1]) * 10 + DigitValue(s[|s| - 1])
  }

  /** `ParseNat` undoes `NatToString`, so the conversion loses nothing. */
  lemma {:induction false} NatToStringRoundTrip(n: nat)
    ensures ParseNat(NatToString(n)) == n
  {
    var s := NatToString(n);
    if n >= 10 {
      NatToStringRoundTrip(n / 10);
      assert s[..|s| - 1] == NatToString(n / 10);
    }
  }

  /** The text `sprintf('%d', $i)` writes for any integer. */
  function IntToString(i: int): (r: string)
    ensures |r| > 0
    ensures i >= 0 ==> r == NatToString(i)
    ensures i < 0 ==> r[0] == '-' && r[1..] == NatToString(-i)
  {
    if i < 0 then "-" + NatToString(-i) else NatToString(i)
  }

  /** Right-aligns `s` in a field of `width` characters, as the `%3d`
      conversion of `sprintf` does; a longer `s` is kept whole. */
  function PadLeft(s: string, width: nat, fill: char): (r: string)
    ensures |r| == if |s| >= width then |s| else width
    ensures r[|r| - |s|..] == s
    ensures forall i :: 0 <= i < |r| - |s| ==> r[i] == fill
  {
    if |s| >= width then s else seq(width - |s|, _ => fill) + s
  }

  /** PHP `implode('', $parts)`. */
  function Concat(parts: seq<string>): string {
    if |parts| == 0 then "" else parts[0] + Concat(parts[1..])
  }

  /** The joined text opens with the first part and closes with the last. */
  lemma {:induction false} ConcatEnds(parts: seq<string>)
    requires |parts| > 0
    ensures StartsWith(Concat(parts), parts[0]) && EndsWith(Concat(parts), parts[|parts| - 1])
  {
    var r := Concat(parts);
    assert r[..|parts[0]|] == parts[0];
    if |parts| > 1 {
      ConcatEnds(parts[1..]);
      assert r[|r| - |parts[|parts| - 1]|..] == Concat(parts[1..])[|Concat(parts[1..])| - |parts[|parts| - 1]|..];
    }
  }

  /** Behind a fixed heading, joining one more part appends it. */
  lemma HeadedAppend(head: string, parts: seq<string>, last: string)
    ensures head + Concat(parts + [last]) == (head + Concat(parts)) + last
  {
    ConcatAppend(parts, last);
  }

  /** Joining one more part appends it. */
  lemma {:induction false} ConcatAppend(parts: seq<string>, last: string)
    ensures Concat(parts + [last]) == Concat(parts) + last
  {
    if |parts| > 0 {
      assert (parts + [last])[1..] == parts[1..] + [last];
      ConcatAppend(parts[1..], last);
    }
  }
}

=== FILE: suffix_wildcard.dfy ===
/** The rewrite ExceptionHandler::getContentType applies to the chosen content
    type. A "suffix wildcard" (`Wildcard`: a slash, a star and a plus, placed
    between a type and a structured-syntax suffix such as "json") is a
    negotiation pattern, not a content type, so every occurrence is replaced by
    a single slash, which turns the JSON-suffix pattern into "application/json". */
module SuffixWildcard {
  import opened Strings

  const Wildcard := "/*+"

  /** Two wildcards in a row: the only way a `Wildcard` survives the rewrite. */
  const DoubleWildcard := "/*+*+"

  /** PHP `str_replace` of `Wildcard` by "/", applied only when `strpos` finds
      a `Wildcard` in the type. */
  function Normalise(t: string): (r: string)
    ensures !Contains(t, Wildcard) ==> r == t
    ensures |r| <= |t|
  {
    if Contains(t, Wildcard) then Rewrite(t) else t
  }

  /** The `str_replace` pass itself: every `Wildcard` found by a single
      left-to-right scan becomes a slash. */
  function Rewrite(t: string): (r: string)
    ensures |r| <= |t|
  {
    ReplaceAll(t, Wildcard, "/")
  }

  /** The pattern and its replacement both begin with `/`, so the rewrite
      never changes the first character. */
  lemma {:induction false} RewriteKeepsFirst(t: string)
    requires |t| > 0
    ensures |Rewrite(t)| > 0 && Rewrite(t)[0] == t[0]
  {
  }

  /** A rewritten text starts with `*+` exactly when the original does. */
  lemma {:induction false} RewriteStarPlus(t: string)
    ensures StartsWith(Rewrite(t), "*+") <==> StartsWith(t, "*+")
  {
    if |t| >= |Wildcard| && t[..|Wildcard|] != Wildcard {
      var rest := t[1..];
      assert t == [t[0]] + rest;
      StartsWithCons(t[0], Rewrite(rest), "*+");
      StartsWithCons(t[0], rest, "*+");
      RewriteKeepsFirst(rest);
    } else if |t| >= |Wildcard| {
      assert t[0] == t[..|Wildcard|][0];
      RewriteKeepsFirst(t);
    }
  }

  /** Without two wildcards in a row, no wildcard is left after the rewrite. */
  lemma {:induction false} RewriteRemovesWildcard(t: string)
    requires !Contains(t, DoubleWildcard)
    ensures !Contains(Rewrite(t), Wildcard)
    decreases |t|
  {
    if |t| >= |Wildcard| {
      var r := Rewrite(t);
      assert DoubleWildcard == Wildcard + "*+";
      assert Wildcard[1..] == "*+";
      if t[..|Wildcard|] == Wildcard {
        var rest := t[|Wildcard|..];
        ContainsDrop(t, DoubleWildcard, |Wildcard|);
        RewriteRemovesWildcard(rest);
        RewriteStarPlus(rest);
        StartsWithConcat(t, Wildcard, "*+");
        assert r == ['/'] + Rewrite(rest);
        StartsWithCons('/', Rewrite(rest), Wildcard);
        assert r[1..] == Rewrite(rest);
      } else {
        var rest := t[1..];
        ContainsDrop(t, DoubleWildcard, 1);
        RewriteRemovesWildcard(rest);
        RewriteStarPlus(rest);
        assert t == [t[0]] + rest;
        assert r == [t[0]] + Rewrite(rest);
        StartsWithCons(t[0], Rewrite(rest), Wildcard);
        StartsWithCons(t[0], rest, Wildcard);
        assert r[1..] == Rewrite(rest);
      }
    }
  }

  /** Two wildcards in a row leave one behind: the pass does not rescan. */
  lemma {:induction false} RewriteLeavesWildcard(t: string)
    requires Contains(t, DoubleWildcard)
    ensures Contains(Rewrite(t), Wildcard)
    decreases |t|
  {
    var r := Rewrite(t);
    assert DoubleWildcard == Wildcard + "*+";
    assert Wildcard[1..] == "*+";
    StartsWithConcat(t, Wildcard, "*+");
    if t[..|Wildcard|] == Wildcard {
      var rest := t[|Wildcard|..];
      assert r == ['/'] + Rewrite(rest);
      assert r[1..] == Rewrite(rest);
      StartsWithCons('/', Rewrite(rest), Wildcard);
      RewriteStarPlus(rest);
      if !StartsWith(rest, "*+") {
        assert t[1] == '*' && t[2] == '+' by {
          assert t[..|Wildcard|][1] == t[1] && t[..|Wildcard|][2] == t[2];
        }
        assert Contains(t[1..], DoubleWildcard);
        ContainsSkip(t[1..], DoubleWildcard);
        assert t[1..][1..] == t[2..];
        ContainsSkip(t[2..], DoubleWildcard);
        assert t[2..][1..] == rest;
        RewriteLeavesWildcard(rest);
        ContainsTail(r, Wildcard);
      }
    } else {
      var rest := t[1..];
      assert r == [t[0]] + Rewrite(rest);
      assert r[1..] == Rewrite(rest);
      RewriteLeavesWildcard(rest);
      ContainsTail(r, Wildcard);
    }
  }

  /** A wildcard survives normalisation exactly when the type held two in a
      row, so the result is free of wildcards only for such types. */
  lemma NormaliseLeavesWildcardIff(t: string)
    ensures Contains(Normalise(t), Wildcard) <==> Contains(t, DoubleWildcard)
  {
    if Contains(t, Wildcard) {
      if Contains(t, DoubleWildcard) {
        RewriteLeavesWildcard(t);
      } else {
        RewriteRemovesWildcard(t);
      }
    } else if Contains(t, DoubleWildcard) {
      ContainsPrefix(t, DoubleWildcard, Wildcard);
    }
  }

  /** Normalising twice is normalising once, for every type without two
      wildcards in a row. */
  lemma NormaliseIdempotent(t: string)
    requires !Contains(t, DoubleWildcard)
    ensures Normalise(Normalise(t)) == Normalise(t)
  {
    NormaliseLeavesWildcardIff(t);
  }

  predicate NoSlash(p: string) {
    forall i :: 0 <= i < |p| ==> p[i] != '/'
  }

  /** A type without a star holds no wildcard. */
  lemma {:induction false} NoStarNoWildcard(t: string)
    requires forall i :: 0 <= i < |t| ==> t[i] != '*'
    ensures !Contains(t, Wildcard)
    decreases |t|
  {
    if |t| >= |Wildcard| {
      assert t[..|Wildcard|][1] == t[1];
      NoStarNoWildcard(t[1..]);
    }
  }

  /** A character other than a slash cannot open a wildcard, so the rewrite
      keeps it and moves on. */
  lemma RewriteKeepsHead(t: string)
    requires |t| > 0 && t[0] != '/'
    ensures Rewrite(t) == [t[0]] + Rewrite(t[1..])
  {
    if |t| >= |Wildcard| {
      assert t[..|Wildcard|][0] != Wildcard[0];
    } else {
      assert t == [t[0]] + t[1..];
    }
  }

  /** Text without a slash passes through the rewrite unchanged. */
  lemma {:induction false} RewriteSkipsPlain(p: string, q: string)
    requires NoSlash(p)
    ensures Rewrite(p + q) == p + Rewrite(q)
    decreases |p|
  {
    if |p| == 0 {
      assert p + q == q;
    } else {
      var t := p + q;
      var p' := p[1..];
      assert t[0] == p[0];
      assert t[1..] == p' + q;
      assert NoSlash(p') by {
        forall i | 0 <= i < |p'| ensures p'[i] != '/' {
          assert p'[i] == p[i + 1];
        }
      }
      RewriteKeepsHead(t);
      RewriteSkipsPlain(p', q);
      assert Rewrite(t) == [p[0]] + (p' + Rewrite(q));
      assert [p[0]] + (p' + Rewrite(q)) == ([p[0]] + p') + Rewrite(q);
      assert [p[0]] + p' == p;
    }
  }

  /** Slash-free text is left alone by the rewrite. */
  lemma RewritePlain(p: string)
    requires NoSlash(p)
    ensures Rewrite(p) == p
  {
    assert p + "" == p;
    RewriteSkipsPlain(p, "");
  }

  /** A wildcard at the front becomes a slash. */
  lemma RewriteAtWildcard(rest: string)
    ensures Rewrite(Wildcard + rest) == "/" + Rewrite(rest)
  {
    var t := Wildcard + rest;
    assert t[..|Wildcard|] == Wildcard;
    assert t[|Wildcard|..] == rest;
  }

  /** A suffix wildcard collapses to its plain type: `type` followed by
      `Wildcard` and `suffix` becomes `type`, a slash and `suffix`. */
  lemma NormaliseSuffixPattern(tp: string, suffix: string)
    requires NoSlash(tp) && NoSlash(suffix)
    ensures Normalise(tp + Wildcard + suffix) == tp + "/" + suffix
  {
    var t := tp + Wildcard + suffix;
    assert t[|tp|..|tp| + |Wildcard|] == Wildcard;
    ContainsAt(t, Wildcard, |tp|);
    assert t == tp + (Wildcard + suffix);
    RewriteSkipsPlain(tp, Wildcard + suffix);
    RewriteAtWildcard(suffix);
    RewritePlain(suffix);
  }

  /** The rewrite of a double wildcard between slash-free parts. */
  lemma RewriteDouble(tp: string, suffix: string)
    requires NoSlash(tp) && NoSlash(suffix)
    ensures Rewrite(tp + DoubleWildcard + suffix) == tp + Wildcard + suffix
  {
    var tail := "*+" + suffix;
    assert NoSlash(tail) by {
      forall i | 0 <= i < |tail| ensures tail[i] != '/' {
        if i >= 2 { assert tail[i] == suffix[i - 2]; }
      }
    }
    assert DoubleWildcard == Wildcard + "*+";
    assert tp + DoubleWildcard + suffix == tp + (Wildcard + tail);
    RewriteSkipsPlain(tp, Wildcard + tail);
    RewriteAtWildcard(tail);
    RewritePlain(tail);
    assert Rewrite(tp + DoubleWildcard + suffix) == tp + ("/" + tail);
    assert "/" + tail == Wildcard + suffix;
  }

  /** Two wildcards in a row come out as one: the result is again a
      wildcard pattern, and normalising it once more changes it again. */
  lemma NormaliseDoubleWildcard(tp: string, suffix: string)
    requires NoSlash(tp) && NoSlash(suffix)
    ensures Normalise(tp + DoubleWildcard + suffix) == tp + Wildcard + suffix
    ensures Contains(Normalise(tp + DoubleWildcard + suffix), Wildcard)
    ensures Normalise(Normalise(tp + DoubleWildcard + suffix)) != Normalise(tp + DoubleWildcard + suffix)
  {
    var t := tp + DoubleWildcard + suffix;
    assert t[|tp|..|tp| + |Wildcard|] == Wildcard;
    ContainsAt(t, Wildcard, |tp|);
    RewriteDouble(tp, suffix);
    var u := tp + Wildcard + suffix;
    assert u[|tp|..|tp| + |Wildcard|] == Wildcard;
    ContainsAt(u, Wildcard, |tp|);
    NormaliseSuffixPattern(tp, suffix);
    assert |tp + "/" + suffix| < |u|;
  }
}

=== FILE: text_formatter.dfy ===
/** The plain-text exception formatter built on Whoops: one header line
    `(<id>) <type>: <message>`, optionally followed by a numbered stack trace
    whose frames may carry a dump of their call arguments. */
module TextFormatter {
  import opened Wrappers
  import opened Strings
  import opened OrderedMap
  import ExceptionHandler
  import SuffixWildcard

  /** The content types the formatter declares. */
  const ContentTypes: seq<string> := ["text/plain"]

  /** Whoops' `PlainTextHandler::VAR_DUMP_PREFIX`, put in front of every line
      of an argument dump. */
  const VarDumpPrefix := "   | "

  /** One stack frame as Whoops reports it; `argsDump` is what `var_dump`
      prints for the frame's arguments. */
  datatype Frame = Frame(className: string, functionName: string, file: string, line: int, argsDump: string)

  /** What Whoops extracts from the exception. */
  datatype ExceptionData = ExceptionData(id: string, kind: string, message: string, trace: seq<Frame>)

  /** `addTraceFunctionArgsToOutput()`: a boolean, or the number of frames
      (counted from the first) whose arguments are dumped. */
  datatype ArgsSetting = Flag(enabled: bool) | UpTo(frames: int)

  /** The handler settings the formatter reads. */
  datatype Options = Options(addTrace: bool, args: ArgsSetting, argsLimit: int)

  /** PHP truthiness of a string: only "" and "0" are false. */
  predicate IsFalsy(s: string) {
    s == "" || s == "0"
  }

  /** `$addArgs === false || $addArgs < $line`; PHP compares `true` with a
      frame number as two booleans, so `true` never suppresses. */
  predicate ArgsSuppressed(setting: ArgsSetting, frameNo: int) {
    match setting
    case Flag(enabled) => !enabled
    case UpTo(n) => n < frameNo
  }

  /** Inserts the prefix after every newline that is not the last character:
      the multi-line `^` of PCRE does not match after a final newline. */
  function PrefixRest(s: string): (r: string)
    ensures |r| >= |s|
    ensures |s| > 0 ==> |r| > 0 && r[0] == s[0]
  {
    if |s| == 0 then ""
    else if s[0] == '\n' && |s| > 1 then "\n" + VarDumpPrefix + PrefixRest(s[1..])
    else [s[0]] + PrefixRest(s[1..])
  }

  /** Nothing is inserted after the last character, so a final newline
      stays last. */
  lemma {:induction false} PrefixRestKeepsLast(s: string)
    requires |s| > 0
    ensures PrefixRest(s)[|PrefixRest(s)| - 1] == s[|s| - 1]
  {
    if |s| > 1 {
      PrefixRestKeepsLast(s[1..]);
    }
  }

  /** `preg_replace('/^/m', VAR_DUMP_PREFIX, $dump)`. */
  function PrefixLines(dump: string): (r: string)
    ensures StartsWith(r, VarDumpPrefix)
    ensures forall i :: 0 <= i < |r| - 1 && r[i] == '\n' ==> StartsWith(r[i + 1..], VarDumpPrefix)
    ensures '\n' !in dump ==> r == VarDumpPrefix + dump
    ensures |dump| > 0 ==> r[|r| - 1] == dump[|dump| - 1]
  {
    assert '\n' !in dump ==> PrefixRest(dump) == dump by {
      if '\n' !in dump {
        NoNewlineUnchanged(dump);
      }
    }
    var t := PrefixRest(dump);
    var r := VarDumpPrefix + t;
    assert |dump| > 0 ==> r[|r| - 1] == dump[|dump| - 1] by {
      if |dump| > 0 {
        PrefixRestKeepsLast(dump);
      }
    }
    PrefixedLinesMarked(dump);
    r
  }

  /** The newline marking of `PrefixRest` carries over once the first line's
      prefix is put in front. */
  lemma PrefixedLinesMarked(dump: string)
    ensures var r := VarDumpPrefix + PrefixRest(dump);
      forall i :: 0 <= i < |r| - 1 && r[i] == '\n' ==> StartsWith(r[i + 1..], VarDumpPrefix)
  {
    var t := PrefixRest(dump);
    var r := VarDumpPrefix + t;
    assert r[|VarDumpPrefix|..] == t;
    forall i | 0 <= i < |r| - 1 && r[i] == '\n'
      ensures StartsWith(r[i + 1..], VarDumpPrefix)
    {
      // the prefix itself holds no newline
      assert forall k :: 0 <= k < |VarDumpPrefix| ==> r[k] == VarDumpPrefix[k] != '\n';
      assert i >= |VarDumpPrefix|;
      var j := i - |VarDumpPrefix|;
      assert t[j] == r[i];
      assert r[i + 1..] == r[|VarDumpPrefix|..][j + 1..];
      PrefixRestMarksLines(dump, j);
    }
  }

  lemma {:induction false} NoNewlineUnchanged(s: string)
    requires '\n' !in s
    ensures PrefixRest(s) == s
  {
    if |s| > 0 {
      assert '\n' !in s[1..] by {
        assert forall c :: c in s[1..] ==> c in s;
      }
      NoNewlineUnchanged(s[1..]);
    }
  }

  /** Removes the prefix after every non-final newline. */
  function UnprefixRest(t: string): string {
    if |t| == 0 then ""
    else if t[0] == '\n' && |t| > 1 && StartsWith(t[1..], VarDumpPrefix) then
      "\n" + UnprefixRest(t[1 + |VarDumpPrefix|..])
    else [t[0]] + UnprefixRest(t[1..])
  }

  /** The dump is recovered from its prefixed form: prefixing only inserts. */
  lemma {:induction false} PrefixRoundTrip(dump: string)
    ensures UnprefixRest(PrefixLines(dump)[|VarDumpPrefix|..]) == dump
  {
    assert PrefixLines(dump)[|VarDumpPrefix|..] == PrefixRest(dump);
    PrefixRestRoundTrip(dump);
  }

  lemma {:induction false} PrefixRestRoundTrip(s: string)
    ensures UnprefixRest(PrefixRest(s)) == s
  {
    if |s| > 0 {
      var t := PrefixRest(s);
      PrefixRestRoundTrip(s[1..]);
      if s[0] == '\n' && |s| > 1 {
        assert t[1..][..|VarDumpPrefix|] == VarDumpPrefix;
        assert t[1 + |VarDumpPrefix|..] == PrefixRest(s[1..]);
      } else if s[0] == '\n' {
        assert t == "\n";
      } else {
        assert t[1..] == PrefixRest(s[1..]);
      }
    }
  }

  /** Every line of the prefixed dump starts with the prefix: each newline
      that is not the last character is followed by it. */
  lemma {:induction false} PrefixRestMarksLines(s: string, i: nat)
    requires i + 1 < |PrefixRest(s)| && PrefixRest(s)[i] == '\n'
    ensures StartsWith(PrefixRest(s)[i + 1..], VarDumpPrefix)
  {
    var t := PrefixRest(s);
    if s[0] == '\n' && |s| > 1 {
      var t' := PrefixRest(s[1..]);
      assert t == "\n" + VarDumpPrefix + t';
      if i == 0 {
        assert t[1..][..|VarDumpPrefix|] == VarDumpPrefix;
      } else if i > |VarDumpPrefix| {
        var j := i - 1 - |VarDumpPrefix|;
        assert t[i] == t'[j];
        assert t[i + 1..] == t'[j + 1..];
        PrefixRestMarksLines(s[1..], j);
      }
    } else {
      var t' := PrefixRest(s[1..]);
      assert t == [s[0]] + t';
      assert i > 0;
      assert t[i] == t'[i - 1] && t[i + 1..] == t'[i..];
      PrefixRestMarksLines(s[1..], i - 1);
    }
  }

  /** The notice that replaces an argument dump longer than the limit. */
  function DiscardNotice(limit: int): (r: string)
    ensures StartsWith(r, "\n" + VarDumpPrefix)
    ensures StartsWith(r, "\n" + VarDumpPrefix + "Arguments dump length greater than ")
    ensures EndsWith(r, IntToString(limit) + " Bytes. Discarded.")
    ensures |r| == |"\n" + VarDumpPrefix + "Arguments dump length greater than "|
                 + |IntToString(limit) + " Bytes. Discarded."|
  {
    var close := IntToString(limit) + " Bytes. Discarded.";
    Framed("\n", VarDumpPrefix, "Arguments dump length greater than ", close);
    Joined("\n" + VarDumpPrefix, "Arguments dump length greater than ", close);
    assert "\n" + ((VarDumpPrefix + "Arguments dump length greater than ") + close)
        == ("\n" + VarDumpPrefix) + ("Arguments dump length greater than " + close);
    "\n" + ((VarDumpPrefix + "Arguments dump length greater than ") + close)
  }

  /** `getArguments($args, $line)` with the dump already taken. */
  function Arguments(setting: ArgsSetting, frameNo: int, limit: int, dump: string): (r: string)
    ensures r == "" <==> ArgsSuppressed(setting, frameNo)
    ensures !ArgsSuppressed(setting, frameNo) && |dump| > limit ==> r == DiscardNotice(limit)
    ensures !ArgsSuppressed(setting, frameNo) && |dump| <= limit ==>
      && r == "\n" + PrefixLines(dump)
      && StartsWith(r, "\n" + VarDumpPrefix) && UnprefixRest(r[1 + |VarDumpPrefix|..]) == dump
      && forall i :: 0 <= i < |r| - 1 && r[i] == '\n' ==> StartsWith(r[i + 1..], VarDumpPrefix)
  {
    if ArgsSuppressed(setting, frameNo) then ""
    else if |dump| > limit then DiscardNotice(limit)
    else
      var r := "\n" + PrefixLines(dump);
      PrefixRoundTrip(dump);
      assert r[1..] == PrefixLines(dump);
      assert r[..1 + |VarDumpPrefix|] == "\n" + VarDumpPrefix;
      assert r[1 + |VarDumpPrefix|..] == PrefixLines(dump)[|VarDumpPrefix|..];
      forall i | 0 <= i < |r| - 1 && r[i] == '\n'
        ensures StartsWith(r[i + 1..], VarDumpPrefix)
      {
        if i > 0 {
          assert r[i] == PrefixLines(dump)[i - 1];
          assert r[i + 1..] == PrefixLines(dump)[i..];
        }
      }
      r
  }

  /** `<class>-><function>()`, or `<class><function>()` for a falsy class. */
  function Call(f: Frame): (r: string)
    ensures f.className == "" ==> r == f.functionName + "()"
    ensures !IsFalsy(f.className) ==> r == f.className + "->" + f.functionName + "()"
  {
    f.className + (if IsFalsy(f.className) then "" else "->") + f.functionName + "()"
  }

  /** `%3d` of the frame number. */
  function Number(frameNo: int): string {
    PadLeft(IntToString(frameNo), 3, ' ')
  }

  /** The frame number is right-aligned in a field of at least three columns,
      filled with blanks in front. */
  lemma NumberPadded(frameNo: int)
    ensures var r := Number(frameNo);
      var digits := IntToString(frameNo);
      && |r| == (if |digits| >= 3 then |digits| else 3)
      && EndsWith(r, digits)
      && forall i :: 0 <= i < |r| - |digits| ==> r[i] == ' '
  {
  }

  /** `<call> <file>:<line>`. */
  function Location(f: Frame): (r: string)
    ensures StartsWith(r, Call(f) + (" " + f.file + ":"))
    ensures EndsWith(r, IntToString(f.line))
    ensures |r| == |Call(f)| + |f.file| + 2 + |IntToString(f.line)|
  {
    Joined(Call(f), " " + f.file + ":", IntToString(f.line));
    Call(f) + Site(f)
  }

  /** ` <file>:<line>`. */
  function Site(f: Frame): string {
    " " + f.file + ":" + IntToString(f.line)
  }

  /** One frame: a newline, the number, a dot, the location and the
      arguments. */
  function Segment(f: Frame, frameNo: int, opts: Options): (r: string)
    ensures StartsWith(r, "\n" + Number(frameNo) + ". " + Call(f))
    ensures EndsWith(r, Arguments(opts.args, frameNo, opts.argsLimit, f.argsDump))
  {
    var head := "\n" + Number(frameNo) + ". ";
    var args := Arguments(opts.args, frameNo, opts.argsLimit, f.argsDump);
    Framed(head, Call(f), Site(f), args);
    head + ((Call(f) + Site(f)) + args)
  }

  /** A segment shows the frame's whole location, ` <file>:<line>` included,
      right after the frame number. */
  lemma SegmentShowsLocation(f: Frame, frameNo: int, opts: Options)
    ensures StartsWith(Segment(f, frameNo, opts), "\n" + Number(frameNo) + ". " + Location(f))
    ensures |Segment(f, frameNo, opts)|
         == |"\n" + Number(frameNo) + ". "| + |Location(f)| + |Arguments(opts.args, frameNo, opts.argsLimit, f.argsDump)|
  {
    var head := "\n" + Number(frameNo) + ". ";
    var args := Arguments(opts.args, frameNo, opts.argsLimit, f.argsDump);
    Framed(head, Location(f), "", args);
    assert Location(f) + "" == Location(f) == Call(f) + Site(f);
  }

  /** The segments of all frames, numbered from 1: the `array_map` with its
      running `$line` counter. */
  function Segments(frames: seq<Frame>, opts: Options): (parts: seq<string>)
    ensures |parts| == |frames|
    ensures forall i :: 0 <= i < |frames| ==> parts[i] == Segment(frames[i], i + 1, opts)
  {
    var parts := Numbered(frames, SegmentOf(opts));
    assert forall i :: 0 <= i < |frames| ==> parts[i] == SegmentOf(opts)(frames[i], i + 1);
    parts
  }

  /** `Segment` with the settings fixed, as the closure `array_map` calls. */
  function SegmentOf(opts: Options): (Frame, int) -> string {
    (f, n) => Segment(f, n, opts)
  }

  /** `array_map` with a counter that starts at 1 and goes up by one per frame. */
  function Numbered(frames: seq<Frame>, g: (Frame, int) -> string): (parts: seq<string>)
    ensures |parts| == |frames|
    ensures forall i :: 0 <= i < |frames| ==> parts[i] == g(frames[i], i + 1)
  {
    seq(|frames|, i requires 0 <= i < |frames| => g(frames[i], i + 1))
  }

  /** Mapping one more frame adds one result, at the end, with the next number. */
  lemma NumberedAppend(frames: seq<Frame>, f: Frame, g: (Frame, int) -> string)
    ensures Numbered(frames + [f], g) == Numbered(frames, g) + [g(f, |frames| + 1)]
  {
    var parts := Numbered(frames, g);
    var parts' := Numbered(frames + [f], g);
    forall i | 0 <= i < |frames| ensures parts'[i] == parts[i] {
      assert (frames + [f])[i] == frames[i];
    }
    assert (frames + [f])[|frames|] == f;
  }

  /** `getStackTraceOutput($frames)`: the header, then each frame in order. */
  function StackTraceOutput(frames: seq<Frame>, opts: Options): (r: string)
    ensures StartsWith(r, "Stack trace:\n")
  {
    var r := "Stack trace:\n" + Concat(Segments(frames, opts));
    assert r[..|"Stack trace:\n"|] == "Stack trace:\n";
    r
  }

  /** A trace of no frames is the header alone. */
  lemma EmptyTrace(opts: Options)
    ensures StackTraceOutput([], opts) == "Stack trace:\n"
  {
  }

  /** One more frame adds exactly one segment, numbered after the others. */
  lemma SegmentsAppend(frames: seq<Frame>, f: Frame, opts: Options)
    ensures Segments(frames + [f], opts) == Segments(frames, opts) + [Segment(f, |frames| + 1, opts)]
  {
    NumberedAppend(frames, f, SegmentOf(opts));
  }

  /** One more frame adds exactly one segment at the end of the trace. */
  lemma TraceAppendsFrame(frames: seq<Frame>, f: Frame, opts: Options)
    ensures StackTraceOutput(frames + [f], opts) == StackTraceOutput(frames, opts) + Segment(f, |frames| + 1, opts)
  {
    var parts := Segments(frames, opts);
    var seg := Segment(f, |frames| + 1, opts);
    SegmentsAppend(frames, f, opts);
    HeadedAppend("Stack trace:\n", parts, seg);
  }

  lemma NatToStringShort(n: nat)
    requires n < 1000
    ensures |NatToString(n)| <= 3
  {
    if n >= 10 {
      var m := n / 10;
      assert m < 100;
      assert NatToString(n) == NatToString(m) + [DigitChar(n % 10)];
      if m >= 10 {
        assert m / 10 < 10;
        assert |NatToString(m / 10)| == 1;
        assert NatToString(m) == NatToString(m / 10) + [DigitChar(m % 10)];
      }
    }
  }

  /** `%3d` right-aligns frame numbers up to 999 in three columns, and the
      digits read back as the number. */
  lemma NumberReadsBack(frameNo: int)
    requires 1 <= frameNo <= 999
    ensures var pad := Number(frameNo);
      var digits := NatToString(frameNo);
      && |pad| == 3 && |digits| <= 3
      && (forall i :: 0 <= i < 3 - |digits| ==> pad[i] == ' ')
      && pad[3 - |digits|..] == digits
      && ParseNat(pad[3 - |digits|..]) == frameNo
  {
    NatToStringShort(frameNo);
    NatToStringRoundTrip(frameNo);
  }

  /** A segment opens with a newline, the padded frame number and a dot. */
  lemma SegmentStartsWithNumber(f: Frame, frameNo: int, opts: Options)
    requires 1 <= frameNo <= 999
    ensures var s := Segment(f, frameNo, opts);
      |s| >= 6 && s[0] == '\n' && s[1..4] == Number(frameNo) && s[4..6] == ". "
  {
    NatToStringShort(frameNo);
    var pad := Number(frameNo);
    var s := Segment(f, frameNo, opts);
    var head := "\n" + pad + ". ";
    assert s == head + (Location(f) + Arguments(opts.args, frameNo, opts.argsLimit, f.argsDump));
    assert s[..6] == head;
  }

  /** The header line `(<id>) <type>: <message>`. */
  function Header(data: ExceptionData): (r: string)
    ensures StartsWith(r, "(" + data.id + ") ")
    ensures |r| == |data.id| + |data.kind| + |data.message| + 5
    ensures r[|data.id| + 3..|data.id| + 5 + |data.kind|] == data.kind + ": "
    ensures EndsWith(r, data.message)
  {
    var open := "(" + data.id + ") ";
    var r := open + (data.kind + ": " + data.message);
    assert r[..|open|] == open;
    r
  }

  /** `generateResponse()` from the data Whoops extracted. */
  function GenerateResponse(data: ExceptionData, opts: Options): (r: string)
    ensures StartsWith(r, Header(data))
    ensures |r| > 0 && r[|r| - 1] == '\n'
  {
    var trace := if opts.addTrace then "\n" + StackTraceOutput(data.trace, opts) else "";
    assert (Header(data) + trace + "\n")[..|Header(data)|] == Header(data);
    Header(data) + trace + "\n"
  }

  /** Without a trace the output is the header line alone. */
  lemma NoTraceIsHeaderLine(data: ExceptionData, opts: Options)
    requires !opts.addTrace
    ensures GenerateResponse(data, opts) == Header(data) + "\n"
  {
  }

  /** The string identity behind `TraceInsertsBlock`. */
  lemma InsertBlock(h: string, t: string)
    ensures var off := h + "\n";
      h + ("\n" + t) + "\n" == off[..|off| - 1] + "\n" + t + "\n"
  {
    var off := h + "\n";
    assert off[..|off| - 1] == h;
  }

  /** Turning the trace on inserts a newline and the trace block between the
      header and the final newline, and changes nothing else. */
  lemma TraceInsertsBlock(data: ExceptionData, opts: Options)
    requires opts.addTrace
    ensures var off := GenerateResponse(data, opts.(addTrace := false));
      GenerateResponse(data, opts) == off[..|off| - 1] + "\n" + StackTraceOutput(data.trace, opts) + "\n"
  {
    var h := Header(data);
    var t := StackTraceOutput(data.trace, opts);
    NoTraceIsHeaderLine(data, opts.(addTrace := false));
    InsertBlock(h, t);
    assert GenerateResponse(data, opts) == h + ("\n" + t) + "\n";
  }

  /** The formatter's declared types, as `addFormatter` sees them. */
  function Declared(): (vs: seq<ExceptionHandler.Value>)
    ensures forall t :: ExceptionHandler.Str(t) in vs <==> t in ContentTypes
  {
    var vs := seq(|ContentTypes|, i requires 0 <= i < |ContentTypes| => ExceptionHandler.Str(ContentTypes[i]));
    assert vs[0] == ExceptionHandler.Str(ContentTypes[0]);
    vs
  }

  /** Registered without explicit content types, the formatter ends up under
      `text/plain` and nowhere else. */
  lemma RegistersUnderTextPlain<F>(reg: ExceptionHandler.Registry<F>, f: F)
    ensures var r := ExceptionHandler.AddFormatter(reg, f, Declared(), ExceptionHandler.Null);
      && r.failure.None?
      && Get(r.formatters, ContentTypes[0]) == Some(f)
      && (forall t :: t != ContentTypes[0] ==> Get(r.formatters, t) == Get(reg, t))
  {
    assert ContentTypes[0] in ContentTypes;
    assert ExceptionHandler.Str(ContentTypes[0]) in ExceptionHandler.Candidates(ExceptionHandler.Null, Declared());
  }

  /** Registered into an empty handler, the formatter is its only entry. */
  lemma FirstRegistration<F>(f: F)
    ensures ExceptionHandler.AddFormatter([], f, Declared(), ExceptionHandler.Null)
         == ExceptionHandler.Registration([Entry(ContentTypes[0], f)], None)
  {
    var vs := Declared();
    assert vs == [ExceptionHandler.Str(ContentTypes[0])];
    assert vs == [vs[0]] + [];
    assert ExceptionHandler.StringsOf(vs) == [ContentTypes[0]];
    assert ExceptionHandler.ContentTypesOf(ExceptionHandler.Null, vs) == [ContentTypes[0]];
    assert PutAll([], [ContentTypes[0]], f) == [Entry(ContentTypes[0], f)];
  }

  /** `text/plain` is not a suffix pattern. */
  lemma PlainHasNoWildcard()
    ensures !Contains(ContentTypes[0], SuffixWildcard.Wildcard)
  {
    SuffixWildcard.NoStarNoWildcard(ContentTypes[0]);
  }

  /** A handler whose only formatter is this one answers every request with
      `text/plain; charset=utf-8` and the formatter's output, provided the
      negotiator can only pick `text/plain`. */
  lemma HandlerAnswersTextPlain<F>(f: F, req: ExceptionHandler.Request, incoming: ExceptionHandler.Response,
                                   exc: ExceptionHandler.HttpException, negotiate: ExceptionHandler.Negotiator,
                                   format: ExceptionHandler.Format<F>)
    requires negotiate(Trim(req.accept), ContentTypes).GetOr(ContentTypes[0]) == ContentTypes[0]
    ensures ExceptionHandler.HandleException([Entry(ContentTypes[0], f)], req, incoming, exc, negotiate, format)
         == Success(ExceptionHandler.Response(incoming.protocolVersion, exc.statusCode,
                                              ContentTypes[0] + ExceptionHandler.Charset, format(f, exc, req)))
  {
    PlainHasNoWildcard();
    assert ContentTypes == [ContentTypes[0]];
    ExceptionHandler.SingleFormatterAnswers(f, ContentTypes[0], req, incoming, exc, negotiate, format);
  }
}

=== FILE: wrappers.dfy ===
/** Optional values and success/failure results, used for the handler's
    error paths (PHP exceptions) and for the negotiator's answer. */
module Wrappers {

  /** A value that may be missing: the negotiator's pick. */
  datatype Option<T> = None | Some(value: T) {

    /** The value, or `fallback` when there is none. */
    function GetOr(fallback: T): T {
      if Some? then value else fallback
    }
  }

  /** The outcome of an operation that PHP would end by throwing `error`. */
  datatype Result<R, E> = Success(value: R) | Failure(error: E)
}
